=== FILE: README.md ===
# pepper: PE/COFF header location, modelled in Dafny

This project models the header-location core of `pepper`, a decoder for the
Microsoft Portable Executable (PE/COFF) format. It covers five parts:

- The little-endian byte-cursor primitives: `read_u8`, `read_u16`, `read_u32` and
  the `read_bytes_to_buffer!` macro.
- The 64-byte legacy MS-DOS header and its field layout.
- The closed list of `Machine` codes and its `TryFrom<u16>` conversion.
- The sixteen `Characteristics` bit flags.
- The offset logic of `Parser::parse_pe`. It skips 60 bytes, reads `e_lfanew`,
  seeks relatively by `e_lfanew - 64` and compares four bytes with `PE\0\0`.

The file is an immutable `seq<byte>`. A `Cursor` is that sequence plus a position.
Every read either consumes exactly the bytes it needs or fails with
`UnexpectedEof`. It never pads and never returns a partial value.

Files and modules:

- `utils.dfy` (`Utils`): the `Result` type, `u16`/`u32`, the cursor, the
  little-endian codec and the reads.
- `dos.dfy` (`Dos`): `DosHeader`, with its stored form and the decoder.
- `errors.dfy` (`PeErrors`): `PEError` and the `From<io::Error>` conversion.
- `machine.dfy` (`Machines`): `Machine`, its codes and `TryFrom`.
- `characteristics.dfy` (`Flags`): `Characteristic`, its bits, and a mask decoder
  and encoder.
- `parser.dfy` (`Parser`): `ParsePe`.

The source does not decode the DOS header or the characteristics mask. It only
declares the record and the flag values. So `Dos.Decode`/`Dos.Encode` and
`Flags.Decode`/`Flags.Encode` are added here. They are justified by the declared
field order and by the bit values.

Three well-formedness predicates state documented facts that nothing in the
source checks:

- `Dos.HasDosSignature`: the signature is `MZ` or `ZM`.
- `Dos.ChecksumUnused`: a zero checksum means no checksum is used.
- `Dos.WellFormed`: a DOS signature, `lastsize < 512` and `e_lfanew >= 64`.

Where the code departs from what a PE header validator is usually expected to
do, the model follows the code:

- `parse_pe` does not check the `MZ`/`ZM` signature. The first 60 bytes are read
  into a scratch buffer and thrown away.
- `parse_pe` does not reject an `e_lfanew` below 64. The relative seek from
  offset 64 lands at absolute offset `e_lfanew`. That offset is never negative,
  so the seek cannot fail: `Parser.ParsePe` promises that every failure is
  `IoError(UnexpectedEof)`, never the seek's `InvalidInput`.
  `Parser.HeaderPointingIntoItself` gives a file whose signature is `XX` and
  whose `e_lfanew` is 16. Its header is not `Dos.WellFormed`, yet it parses.
- A wrong PE signature is not a `PEError`. It is an `assert_eq!` panic, modelled
  as the separate outcome `SignaturePanic`.
- The only errors are I/O errors, from running out of bytes, and
  `InvalidMachineType`. No error is raised for a bad DOS signature, for a bad
  header offset or for a bad PE signature.
- The success value `PortableExecutable {}` carries nothing. The model returns
  it together with the decoded `e_lfanew` and the cursor just past the signature.

## Model

| member | source | states |
|---|---|---|
| Utils.ReadExact | src/utils.rs:26-34 | yields exactly the next `n` bytes in order and advances the cursor by `n`, or fails with `UnexpectedEof` and no value exactly when `n > 0` and fewer than `n` bytes remain; a zero-length read succeeds with no bytes wherever the cursor is, even past the end |
| Utils.ReadExactSplit | src/utils.rs:26-34 | reading `n` then `m` bytes is reading `n + m` bytes: the blocks concatenate and the cursors agree, and either both succeed or the combined read fails |
| Utils.ReadExactRoundTrip | src/utils.rs:26-34 | a block placed at the cursor is read back verbatim and the cursor ends just after it |
| Utils.ReadU8 | src/utils.rs:3-7 | consumes exactly one byte and returns it unchanged; fails with no value at the end of the data |
| Utils.ReadU16 | src/utils.rs:10-14 | consumes exactly 2 bytes and returns `b0 + 256*b1` (`Utils.U16At`); fails with no value when fewer than 2 bytes remain |
| Utils.ReadU32 | src/utils.rs:17-21 | consumes exactly 4 bytes and returns `b0 + 2^8*b1 + 2^16*b2 + 2^24*b3` (`Utils.U32At`: low half, then high half); fails with no value when fewer than 4 bytes remain |
| Utils.U16FromLe | src/utils.rs:13 | `u16::from_le_bytes`: the general little-endian value of two bytes is `b0 + 256*b1` and lies below 2^16 |
| Utils.U32FromLe | src/utils.rs:20 | `u32::from_le_bytes`: the general little-endian value of four bytes is the weighted sum and lies below 2^32 |
| Utils.FromLeBound | src/utils.rs:17-21 | the little-endian value of `n` bytes is below 256^n |
| Utils.FromLeToLe | src/utils.rs:10-21 | writing a value below 256^n as `n` little-endian bytes and reading it back yields the value |
| Utils.ToLeFromLe | src/utils.rs:10-21 | reading `n` little-endian bytes and writing the value back reproduces the bytes |
| Utils.ReadU8RoundTrip | src/utils.rs:3-7 | a byte written at the cursor is read back, and the cursor advances by 1 |
| Utils.ReadU16RoundTrip | src/utils.rs:10-14 | a `u16` written little-endian at the cursor is read back, and the cursor advances by exactly 2 |
| Utils.ReadU32RoundTrip | src/utils.rs:17-21 | a `u32` written little-endian at the cursor is read back, and the cursor advances by exactly 4 |
| Utils.ReadU16Reencode | src/utils.rs:10-14 | the value read from two bytes re-encodes to those same two bytes |
| Utils.ReadU32Reencode | src/utils.rs:17-21 | the value read from four bytes re-encodes to those same four bytes |
| Utils.SeekRelative | src/main.rs:175 | `seek_relative` moves the position by `delta` and keeps the data; it fails with `InvalidInput` exactly when the target would be before offset 0, and a target past the end is allowed |
| Utils.SeekRelativeCompose | src/main.rs:175 | two successive relative seeks equal one seek by the sum of the offsets |
| Utils.SeekRelativeReachesTarget | src/main.rs:175 | seeking by `target - pos` lands at absolute offset `target` from any position, so `parse_pe`'s seek by `e_lfanew - 64` from offset 64 reaches `e_lfanew`; a read of `n` bytes there succeeds exactly when `n` is 0 or `n` bytes follow `target`, and returns the bytes at `target` |
| Dos.DecodeEncodeWords | src/dos.rs:8-44 | a run of 16-bit fields stored little-endian back to back decodes to the same fields |
| Dos.EncodeDecodeWords | src/dos.rs:8-44 | any even-length byte run is exactly the stored form of the 16-bit words decoded from it |
| Dos.Encode | src/dos.rs:2-47 | the stored header is 64 bytes: the 2 signature bytes come first and `e_lfanew` is the little-endian `u32` at bytes 60..63 |
| Dos.Decode | src/dos.rs:2-47 | decoding 64 bytes takes the signature from bytes 0..1 and `e_lfanew` from the little-endian bytes 60..63 |
| Dos.WordAt | src/dos.rs:8-44 | word `k` of a decoded run of 16-bit fields is the little-endian pair at bytes `2k` and `2k + 1` |
| Dos.DecodeFieldOffsets | src/dos.rs:2-47 | each decoded field comes from its declaration-order offset: signature 0, `lastsize` 2, `nblocks` 4, `nreloc` 6, `hdrsize` 8, `minalloc` 10, `maxalloc` 12, `ss` 14, `sp` 16, `checksum` 18, `ip` 20, `cs` 22, `relocpos` 24, `noverlay` 26, `reserved1` 28..35, `oem_id` 36, `oem_info` 38, `reserved2` 40..59, `e_lfanew` 60..63 |
| Dos.EncodeFieldOffsets | src/dos.rs:2-47 | the stored form of a header holds each field, little-endian, at the same declaration-order offsets |
| Dos.DecodeEncode | src/dos.rs:2-47 | storing a header and decoding it gives back every field verbatim: 2 signature bytes, 13 `u16`, 4 reserved `u16`, 2 OEM `u16`, 10 reserved `u16` and the `u32` |
| Dos.EncodeDecode | src/dos.rs:2-47 | any 64 bytes are exactly the stored form of the header decoded from them |
| Dos.ReadDosHeader | src/dos.rs:2-47 | reading a header consumes exactly 64 bytes and yields the header whose stored form is those bytes, or fails with `UnexpectedEof` when fewer remain |
| Dos.LfanewAtOffset60 | src/dos.rs:45-46 | the header's `e_lfanew` is the `u32` at offset 60, which is what `parse_pe` reads after skipping 60 bytes |
| Dos.LegacyFileSize | src/dos.rs:7-11 | the legacy size is `nblocks * 512 + lastsize`; when `lastsize < 512`, size div 512 is `nblocks` and size mod 512 is `lastsize` |
| Dos.LegacyFileSizeDetermines | src/dos.rs:7-11 | two headers whose `lastsize` is below 512 and whose legacy sizes agree have the same `nblocks` and `lastsize` |
| Machines.TryFrom | src/main.rs:95-127 | an accepted code is the discriminant (`Machines.Code`, main.rs:42-93) of the returned variant; a rejected code gives `InvalidMachineType(n)` with the same `n`, and no variant has that code |
| Machines.TryFromCode | src/main.rs:42-123 | every variant is decoded from its own `repr(u16)` discriminant |
| Machines.CodeInjective | src/main.rs:44-92 | the 25 codes are pairwise distinct |
| Machines.TryFromAllowList | src/main.rs:98-124 | a code is accepted exactly when it is one of the 25 listed codes; every other `u16` gives `InvalidMachineType` carrying it |
| Flags.BitIsPowerOfTwo | src/main.rs:129-162 | flag number `i` in declaration order has the discriminant `2^i` (`Flags.Bit`, the values of main.rs:131-161), so the 16 values are the distinct powers of two from 0x0001 to 0x8000 |
| Flags.Decode | src/main.rs:129-162 | a flag is in the decoded set exactly when its bit is set in the mask, reserved bit included |
| Flags.Encode | src/main.rs:129-162 | the encoded mask has exactly the bits of the given flags set |
| Flags.EncodeDecode | src/main.rs:129-162 | decoding any 16-bit mask and encoding the flags reproduces the mask |
| Flags.DecodeEncode | src/main.rs:129-162 | encoding any set of flags and decoding the mask reproduces the set |
| Flags.AllFlagsFillMask | src/main.rs:129-162 | the union of all 16 flags is 0xFFFF |
| Parser.ParsePe | src/main.rs:167-179 | (the `?` chain of main.rs:170-175 is `Parser.ReadSignature`) input shorter than 64 bytes, or shorter than `e_lfanew + 4`, fails with an I/O error. Otherwise it succeeds exactly when bytes `e_lfanew..e_lfanew+4` are `PE\0\0`, with the cursor at `e_lfanew + 4`. Any other four bytes give the assertion panic |
| Parser.ParseLaidOutImage | src/main.rs:170-176 | an image made of any DOS header, padding up to `e_lfanew`, four signature bytes and any tail parses exactly when those four bytes are `PE\0\0`, whatever the DOS signature |
| Parser.HeaderPointingIntoItself | src/main.rs:175 | an `e_lfanew` of 16, inside the header, is accepted when bytes 16..19 are `PE\0\0`; the cursor ends at 20. The header has the signature `XX`, so it fails both `Dos.HasDosSignature` and `Dos.WellFormed`, yet it parses |
| Parser.TruncatedInputFails | src/main.rs:170-176 | a file shorter than 64 bytes, or too short for the signature at `e_lfanew`, fails with an I/O error and is never read out of bounds |
| Parser.ParsePeDeterminedByLfanew | src/main.rs:170-176 | two files with the same `e_lfanew` and the same four bytes there (or both too short) get the same kind of outcome, offset and cursor position |

## Left out

- Opening the file (`File::open`, `BufReader`) is not modelled; the model starts from the file's bytes. An error from opening the file is not modelled either.
- `main()` with its fixed `pepper.exe` path, and the `dbg!` printing, are diagnostics and are not modelled.
- `io::Error` is reduced to two kinds: `UnexpectedEof` for a short read and `InvalidInput` for a seek before offset 0. The platform error it wraps is not modelled.
- `mod coff` is not part of this model. Nothing here reads the machine or characteristics fields from a file. `Machines.TryFrom` and `Flags.Decode` are pure conversions for that reader to call.
- The `const DOS_HEADER` scratch buffer is modelled as "read and discard 60 bytes". The `if let Some(..) … unreachable!()` construction in `read_bytes_to_buffer!` is modelled as "read the next `n` bytes".
- A failed `read_exact` can leave the stream partly consumed. The model returns no cursor on failure, because every caller propagates the error straight away.
- Rust gives the `DosHeader` struct no fixed memory layout, since it has no `repr(C)`. The model uses the field order of the declaration as the on-disk layout, which is what the PE/COFF format defines.
- `Flags.Decode` and `Flags.Encode` take the mask as an unbounded integer below 2^16, not as a bit-vector. A bit is set when `(mask / bit) % 2 == 1`, the same test as `mask & bit != 0` in Rust.

=== FILE: characteristics.dfy ===
/**
 The `Characteristics` flags of the COFF header (`src/main.rs`), one bit each,
 as in the Characteristics table of the Microsoft PE/COFF specification
 (section 3.3.2). The source declares the bit values only; this module adds the
 conversion between a raw 16-bit mask and the set of flags it holds.
 */
module Flags {
  import opened Utils

  datatype Characteristic =
    | RelocsStripped        // no base relocations; must load at its preferred base
    | ExecutableImage       // image is valid and can be run
    | LineNumsStripped      // COFF line numbers removed (deprecated)
    | LocalSymsStripped     // COFF local symbols removed (deprecated)
    | AggressiveWsTrim      // aggressively trim working set (obsolete)
    | LargeAddressAware     // can handle addresses above 2 GB
    | Reserved              // reserved for future use
    | BytesReversedLo       // little endian (deprecated)
    | Machine32Bit          // 32-bit-word architecture
    | DebugStripped         // debugging information removed
    | RemovableRunFromSwap  // copy to swap when run from removable media
    | NetRunFromSwap        // copy to swap when run from network media
    | System                // system file, not a user program
    | Dll                   // dynamic-link library
    | UpSystemOnly          // uniprocessor machines only
    | BytesReversedHi       // big endian (deprecated)

  /** The discriminant of each flag: the value of the bit it owns. */
  function Bit(c: Characteristic): u16
  {
    match c
    case RelocsStripped       => 0x0001
    case ExecutableImage      => 0x0002
    case LineNumsStripped     => 0x0004
    case LocalSymsStripped    => 0x0008
    case AggressiveWsTrim     => 0x0010
    case LargeAddressAware    => 0x0020
    case Reserved             => 0x0040
    case BytesReversedLo      => 0x0080
    case Machine32Bit         => 0x0100
    case DebugStripped        => 0x0200
    case RemovableRunFromSwap => 0x0400
    case NetRunFromSwap       => 0x0800
    case System               => 0x1000
    case Dll                  => 0x2000
    case UpSystemOnly         => 0x4000
    case BytesReversedHi      => 0x8000
  }

  /** The flags in declaration order, lowest bit first. */
  const All: seq<Characteristic> := [
      RelocsStripped, ExecutableImage, LineNumsStripped, LocalSymsStripped,
      AggressiveWsTrim, LargeAddressAware, Reserved, BytesReversedLo,
      Machine32Bit, DebugStripped, RemovableRunFromSwap, NetRunFromSwap,
      System, Dll, UpSystemOnly, BytesReversedHi
    ]

  /** The position of each flag in `All`. */
  function Index(c: Characteristic): (i: nat)
    ensures i < |All| == 16 && All[i] == c
  {
    match c
    case RelocsStripped       => 0
    case ExecutableImage      => 1
    case LineNumsStripped     => 2
    case LocalSymsStripped    => 3
    case AggressiveWsTrim     => 4
    case LargeAddressAware    => 5
    case Reserved             => 6
    case BytesReversedLo      => 7
    case Machine32Bit         => 8
    case DebugStripped        => 9
    case RemovableRunFromSwap => 10
    case NetRunFromSwap       => 11
    case System               => 12
    case Dll                  => 13
    case UpSystemOnly         => 14
    case BytesReversedHi      => 15
  }

  function Pow2(n: nat): (p: nat)
    ensures p >= 1
  {
    if n == 0 then 1 else 2 * Pow2(n - 1)
  }

  lemma Pow2Upto16()
    ensures Pow2(4) == 0x10 && Pow2(8) == 0x100 && Pow2(12) == 0x1000 && Pow2(16) == 0x1_0000
  {
    assert Pow2(2) == 4;
    assert Pow2(4) == 0x10;
    assert Pow2(6) == 0x40;
    assert Pow2(8) == 0x100;
    assert Pow2(10) == 0x400;
    assert Pow2(12) == 0x1000;
    assert Pow2(14) == 0x4000;
  }

  /** The `n` low-order binary digits of `x`, least significant first. */
  function ToBits(x: nat, n: nat): (bs: seq<bool>)
    ensures |bs| == n
  {
    if n == 0 then [] else [x % 2 == 1] + ToBits(x / 2, n - 1)
  }

  /** The number whose binary digits, least significant first, are `bs`. */
  function FromBits(bs: seq<bool>): nat
  {
    if |bs| == 0 then 0 else (if bs[0] then 1 else 0) + 2 * FromBits(bs[1..])
  }

  lemma {:induction false} FromBitsBound(bs: seq<bool>)
    ensures FromBits(bs) < Pow2(|bs|)
  {
    if |bs| > 0 {
      FromBitsBound(bs[1..]);
    }
  }

  lemma {:induction false} FromBitsToBits(x: nat, n: nat)
    requires x < Pow2(n)
    ensures FromBits(ToBits(x, n)) == x
  {
    if n > 0 {
      var bs := ToBits(x, n);
      assert bs[1..] == ToBits(x / 2, n - 1);
      FromBitsToBits(x / 2, n - 1);
    }
  }

  lemma {:induction false} ToBitsFromBits(bs: seq<bool>)
    ensures ToBits(FromBits(bs), |bs|) == bs
  {
    if |bs| > 0 {
      var x := FromBits(bs);
      assert x / 2 == FromBits(bs[1..]);
      ToBitsFromBits(bs[1..]);
      assert ToBits(x, |bs|) == [bs[0]] + bs[1..];
    }
  }

  lemma MulMono(k: int, d: int)
    requires k > 0 && d >= 1
    ensures k * d >= k
  {
  }

  lemma DivUnique(y: int, k: int, q: int, s: int)
    requires k > 0 && 0 <= s < k && y == k * q + s
    ensures y / k == q
  {
    var q' := y / k;
    if q' > q {
      MulMono(k, q' - q);
      assert false;
    } else if q' < q {
      MulMono(k, q - q');
      assert false;
    }
  }

  lemma DivDiv(x: nat, k: nat)
    requires k >= 1
    ensures x / 2 / k == x / (2 * k)
  {
    var q, r := x / (2 * k), x % (2 * k);
    assert x == (2 * k) * q + r;
    var t := k * q;
    assert x == 2 * t + r by { assert (2 * k) * q == 2 * (k * q); }
    assert x / 2 == t + r / 2;
    DivUnique(x / 2, k, q, r / 2);
  }

  /** Binary digit `i` of `x` is the parity of `x / 2^i`. */
  lemma {:induction false} ToBitsDigit(x: nat, n: nat, i: nat)
    requires i < n
    ensures ToBits(x, n)[i] <==> (x / Pow2(i)) % 2 == 1
  {
    if i > 0 {
      ToBitsDigit(x / 2, n - 1, i - 1);
      DivDiv(x, Pow2(i - 1));
    }
  }

  /** The 16 discriminants are the 16 distinct powers of two from 0x0001 to
      0x8000: flag number `i` owns bit `i`. */
  lemma BitIsPowerOfTwo(c: Characteristic)
    ensures Bit(c) == Pow2(Index(c))
  {
    Pow2Upto16();
  }

  /** Whether `mask` has the bit of `c` set (`mask & c as u16 != 0`). */
  predicate Has(mask: u16, c: Characteristic)
  {
    ToBits(mask, 16)[Index(c)]
  }

  /** The flags of `mask`: every flag whose bit is set, reserved bit included. */
  function Decode(mask: u16): (flags: set<Characteristic>)
    ensures forall c :: c in flags <==> (mask / Bit(c)) % 2 == 1
  {
    forall c ensures Has(mask, c) <==> (mask / Bit(c)) % 2 == 1 {
      ToBitsDigit(mask, 16, Index(c));
      BitIsPowerOfTwo(c);
    }
    set c | c in All && Has(mask, c)
  }

  /** The binary digits of the mask holding exactly `flags`. */
  function Digits(flags: set<Characteristic>): (bs: seq<bool>)
    ensures |bs| == 16
  {
    seq(16, i requires 0 <= i < 16 => All[i] in flags)
  }

  /** The mask holding exactly the bits of `flags`. */
  function Encode(flags: set<Characteristic>): (mask: u16)
    ensures forall c :: c in flags <==> (mask / Bit(c)) % 2 == 1
  {
    var bs := Digits(flags);
    FromBitsBound(bs);
    Pow2Upto16();
    var mask := FromBits(bs);
    ToBitsFromBits(bs);
    forall c ensures c in flags <==> (mask / Bit(c)) % 2 == 1 {
      ToBitsDigit(mask, 16, Index(c));
      BitIsPowerOfTwo(c);
    }
    mask
  }

  /** Decoding then encoding reproduces every 16-bit mask. */
  lemma EncodeDecode(mask: u16)
    ensures Encode(Decode(mask)) == mask
  {
    var bs := Digits(Decode(mask));
    forall i | 0 <= i < 16
      ensures bs[i] == ToBits(mask, 16)[i]
    {
      assert Index(All[i]) == i;
    }
    assert bs == ToBits(mask, 16);
    Pow2Upto16();
    FromBitsToBits(mask, 16);
  }

  /** Encoding then decoding reproduces every set of flags. */
  lemma DecodeEncode(flags: set<Characteristic>)
    ensures Decode(Encode(flags)) == flags
  {
  }

  lemma {:induction false} FromBitsAllSet(n: nat)
    ensures FromBits(seq(n, _ => true)) == Pow2(n) - 1
  {
    if n > 0 {
      FromBitsAllSet(n - 1);
      assert seq(n, _ => true)[1..] == seq(n - 1, _ => true);
    }
  }

  /** The 16 flags together fill the mask: their union is 0xFFFF. */
  lemma AllFlagsFillMask()
    ensures Encode(set c | c in All) == 0xFFFF
  {
    var every := set c | c in All;
    assert Digits(every) == seq(16, _ => true);
    FromBitsAllSet(16);
    Pow2Upto16();
  }
}

=== FILE: dos.dfy ===
/**
 The 64-byte legacy MS-DOS header of `src/dos.rs`. The source only declares
 the record; this module gives it its on-disk meaning: the fields stored
 little-endian, back to back, in declaration order, which puts `e_lfanew` at
 offset 60 where `Parser::parse_pe` reads it.
 */
module Dos {
  import opened Utils

  type Signature = s: seq<byte> | |s| == 2 witness [0, 0]
  type Reserved1 = s: seq<u16> | |s| == 4 witness [0, 0, 0, 0]
  type Reserved2 = s: seq<u16> | |s| == 10 witness [0, 0, 0, 0, 0, 0, 0, 0, 0, 0]

  datatype DosHeader = DosHeader(
    signature: Signature,   // 'MZ', or 'ZM' from endian-naive toolchains
    lastsize: u16,          // image size mod 512
    nblocks: u16,           // number of 512-byte pages in the image
    nreloc: u16,
    hdrsize: u16,
    minalloc: u16,
    maxalloc: u16,
    ss: u16,
    sp: u16,
    checksum: u16,          // zero when no checksum is used
    ip: u16,
    cs: u16,
    relocpos: u16,
    noverlay: u16,
    reserved1: Reserved1,
    oemId: u16,
    oemInfo: u16,
    reserved2: Reserved2,
    eLfanew: u32            // file offset of the 'PE\0\0' signature
  )

  const HeaderSize: nat := 64
  const SignatureSize: nat := 2
  /** Number of 16-bit words between the signature and `e_lfanew`. */
  const WordCount: nat := 29
  const LfanewOffset: nat := SignatureSize + 2 * WordCount

  const Mz: seq<byte> := [0x4D, 0x5A]
  const Zm: seq<byte> := [0x5A, 0x4D]

  /** The 16-bit fields between the signature and `e_lfanew`, in declaration order. */
  function Words(h: DosHeader): (ws: seq<u16>)
    ensures |ws| == WordCount
  {
    [h.lastsize, h.nblocks, h.nreloc, h.hdrsize, h.minalloc, h.maxalloc,
     h.ss, h.sp, h.checksum, h.ip, h.cs, h.relocpos, h.noverlay]
    + h.reserved1 + [h.oemId, h.oemInfo] + h.reserved2
  }

  /** Consecutive little-endian 16-bit words. */
  function EncodeWords(ws: seq<u16>): (bs: seq<byte>)
    ensures |bs| == 2 * |ws|
  {
    if |ws| == 0 then [] else U16ToLe(ws[0]) + EncodeWords(ws[1..])
  }

  function DecodeWords(bs: seq<byte>): (ws: seq<u16>)
    requires |bs| % 2 == 0
    ensures 2 * |ws| == |bs|
  {
    if |bs| == 0 then [] else [U16FromLe(bs[..2])] + DecodeWords(bs[2..])
  }

  lemma {:induction false} DecodeEncodeWords(ws: seq<u16>)
    ensures DecodeWords(EncodeWords(ws)) == ws
  {
    if |ws| > 0 {
      var bs := EncodeWords(ws);
      assert bs[..2] == U16ToLe(ws[0]);
      assert bs[2..] == EncodeWords(ws[1..]);
      DecodeEncodeWords(ws[1..]);
    }
  }

  lemma {:induction false} EncodeDecodeWords(bs: seq<byte>)
    requires |bs| % 2 == 0
    ensures EncodeWords(DecodeWords(bs)) == bs
  {
    if |bs| > 0 {
      var ws := DecodeWords(bs);
      assert ws[0] == U16FromLe(bs[..2]);
      assert ws[1..] == DecodeWords(bs[2..]);
      ToLeFromLe(bs[..2]);
      assert FromLe(bs[..2]) == U16FromLe(bs[..2]);
      assert U16ToLe(ws[0]) == bs[..2];
      EncodeDecodeWords(bs[2..]);
      assert bs == bs[..2] + bs[2..];
    }
  }

  /** The header as it is stored in a file. */
  function Encode(h: DosHeader): (bs: seq<byte>)
    ensures |bs| == HeaderSize
    ensures bs[..SignatureSize] == h.signature
    ensures bs[LfanewOffset..HeaderSize] == U32ToLe(h.eLfanew)
  {
    h.signature + EncodeWords(Words(h)) + U32ToLe(h.eLfanew)
  }

  /** The header stored in `bs`, read field by field in declaration order. */
  function Decode(bs: seq<byte>): (h: DosHeader)
    requires |bs| == HeaderSize
    ensures h.signature == bs[..SignatureSize]
    ensures h.eLfanew == U32At(bs, LfanewOffset)
  {
    var ws := DecodeWords(bs[SignatureSize..LfanewOffset]);
    DosHeader(
      bs[..SignatureSize],
      ws[0], ws[1], ws[2], ws[3], ws[4], ws[5], ws[6],
      ws[7], ws[8], ws[9], ws[10], ws[11], ws[12],
      ws[13..17], ws[17], ws[18], ws[19..29],
      U32FromLe(bs[LfanewOffset..HeaderSize]))
  }

  /** Word `k` of a decoded run is the little-endian pair at bytes `2k`, `2k + 1`. */
  lemma {:induction false} WordAt(bs: seq<byte>, k: nat)
    requires |bs| % 2 == 0 && 2 * k + 2 <= |bs|
    ensures DecodeWords(bs)[k] == U16At(bs, 2 * k)
  {
    if k > 0 {
      WordAt(bs[2..], k - 1);
      assert bs[2..][2 * (k - 1)] == bs[2 * k];
      assert bs[2..][2 * (k - 1) + 1] == bs[2 * k + 1];
    }
  }

  /** The byte offset of every field of the decoded header, in declaration
      order: signature 0, `lastsize` 2, `nblocks` 4, `nreloc` 6, `hdrsize` 8,
      `minalloc` 10, `maxalloc` 12, `ss` 14, `sp` 16, `checksum` 18, `ip` 20,
      `cs` 22, `relocpos` 24, `noverlay` 26, `reserved1` 28..35, `oem_id` 36,
      `oem_info` 38, `reserved2` 40..59, `e_lfanew` 60..63. */
  lemma DecodeFieldOffsets(bs: seq<byte>)
    requires |bs| == HeaderSize
    ensures var h := Decode(bs);
            && h.signature == bs[..2]
            && h.lastsize == U16At(bs, 2)
            && h.nblocks == U16At(bs, 4)
            && h.nreloc == U16At(bs, 6)
            && h.hdrsize == U16At(bs, 8)
            && h.minalloc == U16At(bs, 10)
            && h.maxalloc == U16At(bs, 12)
            && h.ss == U16At(bs, 14)
            && h.sp == U16At(bs, 16)
            && h.checksum == U16At(bs, 18)
            && h.ip == U16At(bs, 20)
            && h.cs == U16At(bs, 22)
            && h.relocpos == U16At(bs, 24)
            && h.noverlay == U16At(bs, 26)
            && (forall k :: 0 <= k < 4 ==> h.reserved1[k] == U16At(bs, 28 + 2 * k))
            && h.oemId == U16At(bs, 36)
            && h.oemInfo == U16At(bs, 38)
            && (forall k :: 0 <= k < 10 ==> h.reserved2[k] == U16At(bs, 40 + 2 * k))
            && h.eLfanew == U32At(bs, 60)
  {
    var mid := bs[SignatureSize..LfanewOffset];
    forall k | 0 <= k < WordCount
      ensures DecodeWords(mid)[k] == U16At(bs, 2 + 2 * k)
    {
      WordAt(mid, k);
    }
  }

  /** The same offsets, seen from the stored form of a header. */
  lemma EncodeFieldOffsets(h: DosHeader)
    ensures var bs := Encode(h);
            && bs[..2] == h.signature
            && U16At(bs, 2) == h.lastsize
            && U16At(bs, 4) == h.nblocks
            && U16At(bs, 6) == h.nreloc
            && U16At(bs, 8) == h.hdrsize
            && U16At(bs, 10) == h.minalloc
            && U16At(bs, 12) == h.maxalloc
            && U16At(bs, 14) == h.ss
            && U16At(bs, 16) == h.sp
            && U16At(bs, 18) == h.checksum
            && U16At(bs, 20) == h.ip
            && U16At(bs, 22) == h.cs
            && U16At(bs, 24) == h.relocpos
            && U16At(bs, 26) == h.noverlay
            && (forall k :: 0 <= k < 4 ==> U16At(bs, 28 + 2 * k) == h.reserved1[k])
            && U16At(bs, 36) == h.oemId
            && U16At(bs, 38) == h.oemInfo
            && (forall k :: 0 <= k < 10 ==> U16At(bs, 40 + 2 * k) == h.reserved2[k])
            && U32At(bs, 60) == h.eLfanew
  {
    DecodeEncode(h);
    DecodeFieldOffsets(Encode(h));
  }

  /** Every field survives a store and a load verbatim. */
  lemma DecodeEncode(h: DosHeader)
    ensures Decode(Encode(h)) == h
  {
    var bs := Encode(h);
    var ws := Words(h);
    assert bs[SignatureSize..LfanewOffset] == EncodeWords(ws);
    DecodeEncodeWords(ws);
    assert bs[LfanewOffset..HeaderSize] == U32ToLe(h.eLfanew);
    assert ws[13..17] == h.reserved1;
    assert ws[19..29] == h.reserved2;
    var d := Decode(bs);
    assert d.signature == h.signature;
    assert d.reserved1 == h.reserved1 && d.reserved2 == h.reserved2;
    assert d.eLfanew == h.eLfanew;
  }

  /** Any 64 bytes are exactly the stored form of the header decoded from them. */
  lemma EncodeDecode(bs: seq<byte>)
    requires |bs| == HeaderSize
    ensures Encode(Decode(bs)) == bs
  {
    var h := Decode(bs);
    var mid := bs[SignatureSize..LfanewOffset];
    var ws := DecodeWords(mid);
    assert Words(h) == ws;
    EncodeDecodeWords(mid);
    var tail := bs[LfanewOffset..HeaderSize];
    assert h.eLfanew == U32FromLe(tail);
    U32ToLeFromLe(tail);
    assert Encode(h) == bs[..SignatureSize] + mid + tail;
    assert bs == bs[..SignatureSize] + mid + tail;
  }

  /** Reading the header from a stream: exactly `HeaderSize` bytes or `UnexpectedEof`. */
  function ReadDosHeader(c: Cursor): (r: IoResult<Read<DosHeader>>)
    ensures r.Ok? <==> c.pos + HeaderSize <= |c.data|
    ensures r.Err? ==> r.error == UnexpectedEof
    ensures r.Ok? ==> Encode(r.value.value) == c.data[c.pos..c.pos + HeaderSize]
    ensures r.Ok? ==> r.value.next == Cursor(c.data, c.pos + HeaderSize)
  {
    var Read(bs, next) :- ReadExact(c, HeaderSize);
    assert bs == c.data[c.pos..c.pos + HeaderSize];
    EncodeDecode(bs);
    Ok(Read(Decode(bs), next))
  }

  /** `e_lfanew` is the little-endian `u32` at offset 60 of the file, the
      position `Parser::parse_pe` reaches by skipping 60 bytes. */
  lemma LfanewAtOffset60(data: seq<byte>)
    requires |data| >= HeaderSize
    ensures LfanewOffset == 60
    ensures ReadDosHeader(Cursor(data, 0)).Ok?
    ensures ReadU32(Cursor(data, 60)).Ok?
    ensures ReadDosHeader(Cursor(data, 0)).value.value.eLfanew
            == ReadU32(Cursor(data, 60)).value.value
  {
    assert data[0..HeaderSize][60..64] == data[60..64];
  }

  /** The documented signature check; nothing in the parser performs it. */
  predicate HasDosSignature(h: DosHeader)
  {
    h.signature == Mz || h.signature == Zm
  }

  /** A zero checksum means that no checksum is used. */
  predicate ChecksumUnused(h: DosHeader)
  {
    h.checksum == 0
  }

  /** Size of the legacy image: `nblocks` 512-byte pages plus `lastsize` bytes. */
  function LegacyFileSize(h: DosHeader): (n: nat)
    ensures h.lastsize < 512 ==> n / 512 == h.nblocks && n % 512 == h.lastsize
    ensures n < 512 * 0x1_0000 + 0x1_0000
  {
    h.nblocks * 512 + h.lastsize
  }

  /** A header in the shape the format documents: a DOS signature, `lastsize`
      below one page and `e_lfanew` outside the header itself. */
  predicate WellFormed(h: DosHeader)
  {
    && HasDosSignature(h)
    && h.lastsize < 512
    && h.eLfanew >= HeaderSize
  }

  /** When `lastsize` is below one page, `(nblocks, lastsize)` is recovered from
      the legacy file size, so the two fields describe one size and nothing more. */
  lemma LegacyFileSizeDetermines(h1: DosHeader, h2: DosHeader)
    requires h1.lastsize < 512 && h2.lastsize < 512
    requires LegacyFileSize(h1) == LegacyFileSize(h2)
    ensures h1.nblocks == h2.nblocks && h1.lastsize == h2.lastsize
  {
  }
}

=== FILE: errors.dfy ===
/**
 The error type of `src/main.rs`. The wrapped `io::Error` is reduced to the
 kinds of failure the byte cursor can raise.
 */
module PeErrors {
  import opened Utils

  datatype PEError =
    | IoError(cause: Utils.IoError)
    | InvalidMachineType(code: u16)

  type PEResult<T> = Result<T, PEError>

  /** `impl From<io::Error> for PEError`, used by `?` in `parse_pe`. */
  function FromIo(e: Utils.IoError): (r: PEError)
    ensures r.IoError? && r.cause == e
  {
    IoError(e)
  }

  /** Lifting an I/O result keeps its value and wraps its error. */
  function LiftIo<T>(r: IoResult<T>): (p: PEResult<T>)
    ensures r.Ok? <==> p.Ok?
    ensures r.Ok? ==> p.value == r.value
    ensures r.Err? ==> p.error == IoError(r.error)
  {
    r.MapError(FromIo)
  }
}

=== FILE: machine.dfy ===
/**
 The `Machine` field of the COFF header (`src/main.rs`): a closed list of CPU
 types, each bound to its 16-bit code from the Machine Types table of the
 Microsoft PE/COFF specification (section 3.3.1), and the allow-list
 conversion from a raw code.
 */
module Machines {
  import opened Utils
  import opened PeErrors

  datatype Machine =
    | Unknown    // The contents of the field apply to any machine type
    | Am33       // Matsushita AM33
    | Amd64      // x64
    | Arm        // ARM little endian
    | Arm64      // ARM64 little endian
    | Armnt      // ARM Thumb-2 little endian
    | Ebc        // EFI byte code
    | I386       // Intel 386 or later and compatible processors
    | Ia64       // Intel Itanium processor family
    | M32R       // Mitsubishi M32R little endian
    | Mips16     // MIPS16
    | MipsFpu    // MIPS with FPU
    | MipsFpu16  // MIPS16 with FPU
    | PowerPc    // Power PC little endian
    | PowerPcFp  // Power PC with floating point support
    | R4000      // MIPS little endian
    | RiscV32    // RISC-V 32-bit address space
    | RiscV64    // RISC-V 64-bit address space
    | RiscV128   // RISC-V 128-bit address space
    | Sh3        // Hitachi SH3
    | Sh3Dsp     // Hitachi SH3 DSP
    | Sh4        // Hitachi SH4
    | Sh5        // Hitachi SH5
    | Thumb      // Thumb
    | WceMipsV2  // MIPS little-endian WCE v2

  /** The `repr(u16)` discriminant of each variant. */
  function Code(m: Machine): u16
  {
    match m
    case Unknown   => 0x0
    case Am33      => 0x1d3
    case Amd64     => 0x8664
    case Arm       => 0x1c0
    case Arm64     => 0xaa64
    case Armnt     => 0x1c4
    case Ebc       => 0xebc
    case I386      => 0x14c
    case Ia64      => 0x200
    case M32R      => 0x9041
    case Mips16    => 0x266
    case MipsFpu   => 0x366
    case MipsFpu16 => 0x466
    case PowerPc   => 0x1f0
    case PowerPcFp => 0x1f1
    case R4000     => 0x166
    case RiscV32   => 0x5032
    case RiscV64   => 0x5064
    case RiscV128  => 0x5128
    case Sh3       => 0x1a2
    case Sh3Dsp    => 0x1a3
    case Sh4       => 0x1a6
    case Sh5       => 0x1a8
    case Thumb     => 0x1c2
    case WceMipsV2 => 0x169
  }

  /** The 25 codes of the table, written out independently of `Code`. */
  const KnownCodes: set<u16> := {
      0x0, 0x1d3, 0x8664, 0x1c0, 0xaa64, 0x1c4, 0xebc,
      0x14c, 0x200, 0x9041, 0x266, 0x366, 0x466, 0x1f0,
      0x1f1, 0x166, 0x5032, 0x5064, 0x5128, 0x1a2, 0x1a3,
      0x1a6, 0x1a8, 0x1c2, 0x169
    }

  /** `impl TryFrom<u16> for Machine`: the variant whose code is `n`, or
      `InvalidMachineType(n)` when no variant has that code. */
  function TryFrom(n: u16): (r: PEResult<Machine>)
    ensures r.Ok? ==> Code(r.value) == n
    ensures r.Err? ==> r.error == InvalidMachineType(n)
    ensures r.Err? ==> forall m :: Code(m) != n
  {
    match n
    case 0x0 => Ok(Unknown)
    case 0x1d3 => Ok(Am33)
    case 0x8664 => Ok(Amd64)
    case 0x1c0 => Ok(Arm)
    case 0xaa64 => Ok(Arm64)
    case 0x1c4 => Ok(Armnt)
    case 0xebc => Ok(Ebc)
    case 0x14c => Ok(I386)
    case 0x200 => Ok(Ia64)
    case 0x9041 => Ok(M32R)
    case 0x266 => Ok(Mips16)
    case 0x366 => Ok(MipsFpu)
    case 0x466 => Ok(MipsFpu16)
    case 0x1f0 => Ok(PowerPc)
    case 0x1f1 => Ok(PowerPcFp)
    case 0x166 => Ok(R4000)
    case 0x5032 => Ok(RiscV32)
    case 0x5064 => Ok(RiscV64)
    case 0x5128 => Ok(RiscV128)
    case 0x1a2 => Ok(Sh3)
    case 0x1a3 => Ok(Sh3Dsp)
    case 0x1a6 => Ok(Sh4)
    case 0x1a8 => Ok(Sh5)
    case 0x1c2 => Ok(Thumb)
    case 0x169 => Ok(WceMipsV2)
    case _ => Err(InvalidMachineType(n))
  }

  /** Every variant is recognised from its own code. */
  lemma TryFromCode(m: Machine)
    ensures TryFrom(Code(m)) == Ok(m)
  {
  }

  /** The codes are pairwise distinct, so the table is a well-defined mapping. */
  lemma CodeInjective(m1: Machine, m2: Machine)
    requires Code(m1) == Code(m2)
    ensures m1 == m2
  {
    TryFromCode(m1);
    TryFromCode(m2);
  }

  /** A code is accepted exactly when it is one of the 25 listed codes. */
  lemma TryFromAllowList(n: u16)
    ensures TryFrom(n).Ok? <==> n in KnownCodes
    ensures n !in KnownCodes ==> TryFrom(n) == Err(InvalidMachineType(n))
  {
  }
}

=== FILE: parser.dfy ===
/**
 `Parser::parse_pe` of `src/main.rs`: locate the PE signature through the
 `e_lfanew` field of the DOS header and check it. The file is an immutable byte
 sequence; the outcome is the decoded offset and the cursor just past the
 signature (the hand-off point for COFF header decoding), a `PEError`, or the
 panic raised by the `assert_eq!` on the signature bytes.
 */
module Parser {
  import opened Utils
  import opened PeErrors
  import Dos

  /** `PE_HEADER`: the bytes "PE\0\0". */
  const PeSignature: seq<byte> := [0x50, 0x45, 0x00, 0x00]

  /** Length of the `DOS_HEADER` scratch buffer: the bytes before `e_lfanew`,
      read and discarded without any check. */
  const DosSkip: nat := 60

  /** `PortableExecutable {}`: carries no data. */
  datatype PortableExecutable = PortableExecutable

  datatype Outcome =
    | Parsed(pe: PortableExecutable, eLfanew: u32, cursor: Cursor)
    | Failed(error: PEError)
    | SignaturePanic(found: seq<byte>)   // the `assert_eq!` against `PE_HEADER` fails

  /** The `?`-propagating part of `parse_pe`: skip 60 bytes, read `e_lfanew`,
      seek by `e_lfanew - 64` from offset 64, and read four bytes. */
  function ReadSignature(data: seq<byte>): (r: PEResult<(u32, Read<seq<byte>>)>)
  {
    var Read(_, afterSkip) :- LiftIo(ReadExact(Cursor(data, 0), DosSkip));
    var Read(ptr, afterPtr) :- LiftIo(ReadU32(afterSkip));
    var atSignature :- LiftIo(SeekRelative(afterPtr, ptr as int - 64));
    var signature :- LiftIo(ReadExact(atSignature, 4));
    Ok((ptr, signature))
  }

  /** `Parser::parse_pe` on the contents of the opened file. With `e` the
      `e_lfanew` field of the DOS header occupying the first 64 bytes:
      the input fails only by running out of bytes (before offset 64 or before
      `e + 4`); otherwise the four bytes at absolute offset `e` decide between
      success, with the cursor at `e + 4`, and the assertion panic. No DOS
      signature is checked and no lower bound on `e` is enforced. */
  function ParsePe(data: seq<byte>): (r: Outcome)
    ensures |data| < Dos.HeaderSize ==> r == Failed(IoError(UnexpectedEof))
    ensures |data| >= Dos.HeaderSize ==>
              var e := Dos.Decode(data[..Dos.HeaderSize]).eLfanew;
              && (r.Failed? <==> e + 4 > |data|)
              && (r.Failed? ==> r.error == IoError(UnexpectedEof))
              && (r.Parsed? <==> e + 4 <= |data| && data[e..e + 4] == PeSignature)
              && (r.Parsed? ==> r.eLfanew == e && r.cursor == Cursor(data, e + 4))
              && (r.SignaturePanic? ==> r.found == data[e..e + 4] && r.found != PeSignature)
  {
    match ReadSignature(data)
    case Err(e) => Failed(e)
    case Ok((ptr, Read(signature, next))) =>
      if signature == PeSignature then Parsed(PortableExecutable, ptr, next)
      else SignaturePanic(signature)
  }

  /** An image laid out as the format describes — a DOS header, padding up to
      `e_lfanew`, four signature bytes, anything after — is parsed from its
      header alone: whatever the header's own signature, the outcome is decided
      by the four bytes at `e_lfanew`. */
  lemma ParseLaidOutImage(h: Dos.DosHeader, pad: seq<byte>, signature: seq<byte>, rest: seq<byte>)
    requires h.eLfanew == Dos.HeaderSize + |pad|
    requires |signature| == 4
    ensures var data := Dos.Encode(h) + pad + signature + rest;
            ParsePe(data) == if signature == PeSignature
                             then Parsed(PortableExecutable, h.eLfanew, Cursor(data, h.eLfanew + 4))
                             else SignaturePanic(signature)
  {
    var data := Dos.Encode(h) + pad + signature + rest;
    assert data[..Dos.HeaderSize] == Dos.Encode(h);
    Dos.DecodeEncode(h);
    assert data[h.eLfanew..h.eLfanew + 4] == signature;
  }

  /** An `e_lfanew` that points back into the DOS header is not rejected: this
      64-byte file, whose signature is "XX", whose `e_lfanew` is 16 and whose
      bytes 16..19 are "PE\0\0", parses successfully with the cursor at offset
      20, although its header is not well formed on two counts. */
  lemma HeaderPointingIntoItself()
    ensures var data := SelfReferencingHeader();
            && Dos.Decode(data).eLfanew == 16 < Dos.HeaderSize
            && !Dos.HasDosSignature(Dos.Decode(data))
            && !Dos.WellFormed(Dos.Decode(data))
            && ParsePe(data) == Parsed(PortableExecutable, 16, Cursor(data, 20))
  {
    var data := SelfReferencingHeader();
    assert data[..Dos.HeaderSize] == data;
    assert data[16..20] == PeSignature;
    assert Dos.Decode(data).signature == [0x58, 0x58];
  }

  function SelfReferencingHeader(): (data: seq<byte>)
    ensures |data| == Dos.HeaderSize
  {
    [0x58, 0x58] + seq(14, _ => 0) + PeSignature + seq(40, _ => 0) + [0x10, 0, 0, 0]
  }

  /** A file shorter than the DOS header, or one whose `e_lfanew` points at
      fewer than four remaining bytes, fails with an I/O error and never reads
      out of bounds; the relative seek itself never fails, since it lands at
      `e_lfanew >= 0`. */
  lemma TruncatedInputFails(data: seq<byte>)
    requires |data| < Dos.HeaderSize
             || Dos.Decode(data[..Dos.HeaderSize]).eLfanew + 4 > |data|
    ensures ParsePe(data) == Failed(IoError(UnexpectedEof))
  {
  }

  /** The outcome depends on the file only through its length, its `e_lfanew`
      field and the four bytes that field points at. */
  lemma ParsePeDeterminedByLfanew(data1: seq<byte>, data2: seq<byte>)
    requires |data1| >= Dos.HeaderSize && |data2| >= Dos.HeaderSize
    requires Dos.Decode(data1[..Dos.HeaderSize]).eLfanew == Dos.Decode(data2[..Dos.HeaderSize]).eLfanew
    requires var e := Dos.Decode(data1[..Dos.HeaderSize]).eLfanew;
             (e + 4 <= |data1| <==> e + 4 <= |data2|)
             && (e + 4 <= |data1| ==> data1[e..e + 4] == data2[e..e + 4])
    ensures ParsePe(data1).Failed? <==> ParsePe(data2).Failed?
    ensures ParsePe(data1).Parsed? <==> ParsePe(data2).Parsed?
    ensures ParsePe(data1).Parsed? ==>
              && ParsePe(data1).eLfanew == ParsePe(data2).eLfanew
              && ParsePe(data1).cursor.pos == ParsePe(data2).cursor.pos
  {
  }
}

=== FILE: utils.dfy ===
/**
 The byte-cursor primitives of `src/utils.rs`: exact-length little-endian reads
 over an immutable byte sequence. A `Cursor` stands for the `Read` stream the
 source passes around; reading never pads, and a read that cannot be completed
 yields an error and no value.
 */
module Utils {

  newtype byte = x: int | 0 <= x < 0x100
  type u16 = x: int | 0 <= x < 0x1_0000
  type u32 = x: int | 0 <= x < 0x1_0000_0000

  /** The kinds of `io::Error` the reads and seeks of this core can raise. */
  datatype IoError =
    | UnexpectedEof   // `read_exact` ran out of bytes
    | InvalidInput    // a seek to a position before the start of the stream

  /** `Result<T, E>`, usable with `:-`. */
  datatype Result<+T, +E> = Ok(value: T) | Err(error: E) {
    predicate IsFailure() {
      Err?
    }

    function PropagateFailure<U>(): Result<U, E>
      requires Err?
    {
      Err(error)
    }

    function Extract(): T
      requires Ok?
    {
      value
    }

    function MapError<F>(f: E -> F): (r: Result<T, F>)
      ensures Ok? <==> r.Ok?
      ensures Ok? ==> r.value == value
      ensures Err? ==> r.error == f(error)
    {
      match this
      case Ok(v) => Ok(v)
      case Err(e) => Err(f(e))
    }
  }

  type IoResult<T> = Result<T, IoError>

  /** A position in a byte stream. `pos` may lie past the end (a seek there is
      allowed); the next read then fails. */
  datatype Cursor = Cursor(data: seq<byte>, pos: nat)

  /** A value read together with the cursor just after it. */
  datatype Read<T> = Read(value: T, next: Cursor)

  function Pow256(n: nat): (p: nat)
    ensures p >= 1
  {
    if n == 0 then 1 else 256 * Pow256(n - 1)
  }

  /** The number whose little-endian byte representation is `bs`. */
  function FromLe(bs: seq<byte>): nat
  {
    if |bs| == 0 then 0 else bs[0] as nat + 256 * FromLe(bs[1..])
  }

  /** The `n` low-order bytes of `x`, least significant first. */
  function ToLe(x: nat, n: nat): (bs: seq<byte>)
    ensures |bs| == n
  {
    if n == 0 then [] else [(x % 256) as byte] + ToLe(x / 256, n - 1)
  }

  lemma {:induction false} FromLeBound(bs: seq<byte>)
    ensures FromLe(bs) < Pow256(|bs|)
  {
    if |bs| > 0 {
      FromLeBound(bs[1..]);
      assert FromLe(bs[1..]) <= Pow256(|bs| - 1) - 1;
      assert 256 * FromLe(bs[1..]) <= 256 * Pow256(|bs| - 1) - 256;
    }
  }

  lemma {:induction false} FromLeToLe(x: nat, n: nat)
    requires x < Pow256(n)
    ensures FromLe(ToLe(x, n)) == x
  {
    if n > 0 {
      var bs := ToLe(x, n);
      assert bs[0] as nat == x % 256;
      assert bs[1..] == ToLe(x / 256, n - 1);
      assert x / 256 < Pow256(n - 1);
      FromLeToLe(x / 256, n - 1);
      assert FromLe(bs) == x % 256 + 256 * (x / 256);
    }
  }

  lemma {:induction false} ToLeFromLe(bs: seq<byte>)
    ensures ToLe(FromLe(bs), |bs|) == bs
  {
    if |bs| > 0 {
      var x := FromLe(bs);
      assert x % 256 == bs[0] as nat;
      assert x / 256 == FromLe(bs[1..]);
      ToLeFromLe(bs[1..]);
      assert ToLe(x, |bs|) == [bs[0]] + bs[1..];
    }
  }

  /** The little-endian `u16` stored at byte offset `off`: the low byte first. */
  function U16At(bs: seq<byte>, off: nat): u16
    requires off + 2 <= |bs|
  {
    bs[off] as int + 0x100 * bs[off + 1] as int
  }

  /** The little-endian `u32` stored at byte offset `off`: the low half at
      `off`, the high half at `off + 2`. */
  function U32At(bs: seq<byte>, off: nat): u32
    requires off + 4 <= |bs|
  {
    U16At(bs, off) + 0x1_0000 * U16At(bs, off + 2)
  }

  /** `u16::from_le_bytes`. */
  function U16FromLe(bs: seq<byte>): (x: u16)
    requires |bs| == 2
    ensures x == U16At(bs, 0)
  {
    FromLeBound(bs);
    assert bs[1..][1..] == [];
    FromLe(bs)
  }

  /** `u32::from_le_bytes`. */
  function U32FromLe(bs: seq<byte>): (x: u32)
    requires |bs| == 4
    ensures x == U32At(bs, 0)
  {
    FromLeBound(bs);
    assert FromLe(bs[3..]) == bs[3] as int by {
      assert bs[3..][1..] == [];
    }
    assert FromLe(bs[2..]) == bs[2] as int + 0x100 * bs[3] as int by {
      assert bs[2..][1..] == bs[3..];
    }
    assert FromLe(bs[1..]) == bs[1] as int + 0x100 * FromLe(bs[2..]) by {
      assert bs[1..][1..] == bs[2..];
    }
    FromLe(bs)
  }

  /** Four bytes are the `to_le_bytes` form of their own `from_le_bytes` value. */
  lemma U32ToLeFromLe(bs: seq<byte>)
    requires |bs| == 4
    ensures U32ToLe(U32FromLe(bs)) == bs
  {
    ToLeFromLe(bs);
    assert FromLe(bs) == U32FromLe(bs);
  }

  /** `x.to_le_bytes()` for a `u16`. */
  function U16ToLe(x: u16): (bs: seq<byte>)
    ensures |bs| == 2 && U16FromLe(bs) == x
  {
    FromLeToLe(x, 2);
    ToLe(x, 2)
  }

  /** `x.to_le_bytes()` for a `u32`. */
  function U32ToLe(x: u32): (bs: seq<byte>)
    ensures |bs| == 4 && U32FromLe(bs) == x
  {
    FromLeToLe(x, 4);
    ToLe(x, 4)
  }

  /** The `n` bytes at the cursor, or `UnexpectedEof` when fewer remain
      (`Read::read_exact`, and the `read_bytes_to_buffer!` macro built on it). */
  function ReadExact(c: Cursor, n: nat): (r: IoResult<Read<seq<byte>>>)
    ensures r.Ok? <==> n == 0 || c.pos + n <= |c.data|
    ensures r.Err? ==> r.error == UnexpectedEof
    ensures r.Ok? ==> |r.value.value| == n
    ensures r.Ok? ==> forall i :: 0 <= i < n ==> r.value.value[i] == c.data[c.pos + i]
    ensures r.Ok? ==> r.value.next == Cursor(c.data, c.pos + n)
  {
    if n == 0 then
      Ok(Read([], c))
    else if c.pos + n <= |c.data| then
      Ok(Read(c.data[c.pos..c.pos + n], Cursor(c.data, c.pos + n)))
    else
      Err(UnexpectedEof)
  }

  /** `read_u8`: the byte at the cursor. */
  function ReadU8(c: Cursor): (r: IoResult<Read<byte>>)
    ensures r.Ok? <==> c.pos < |c.data|
    ensures r.Err? ==> r.error == UnexpectedEof
    ensures r.Ok? ==> r.value.value == c.data[c.pos]
    ensures r.Ok? ==> r.value.next == Cursor(c.data, c.pos + 1)
  {
    var Read(b, next) :- ReadExact(c, 1);
    Ok(Read(b[0], next))
  }

  /** `read_u16`: two bytes at the cursor, little-endian. */
  function ReadU16(c: Cursor): (r: IoResult<Read<u16>>)
    ensures r.Ok? <==> c.pos + 2 <= |c.data|
    ensures r.Err? ==> r.error == UnexpectedEof
    ensures r.Ok? ==> r.value.value == U16At(c.data, c.pos)
    ensures r.Ok? ==> r.value.next == Cursor(c.data, c.pos + 2)
  {
    var Read(b, next) :- ReadExact(c, 2);
    Ok(Read(U16FromLe(b), next))
  }

  /** `read_u32`: four bytes at the cursor, little-endian. */
  function ReadU32(c: Cursor): (r: IoResult<Read<u32>>)
    ensures r.Ok? <==> c.pos + 4 <= |c.data|
    ensures r.Err? ==> r.error == UnexpectedEof
    ensures r.Ok? ==> r.value.value == U32At(c.data, c.pos)
    ensures r.Ok? ==> r.value.next == Cursor(c.data, c.pos + 4)
  {
    var Read(b, next) :- ReadExact(c, 4);
    Ok(Read(U32FromLe(b), next))
  }

  /** `seek_relative(delta)`: moves the cursor by `delta`; a target before the
      start of the stream is `InvalidInput`, one past its end is allowed. */
  function SeekRelative(c: Cursor, delta: int): (r: IoResult<Cursor>)
    ensures r.Ok? <==> c.pos + delta >= 0
    ensures r.Err? ==> r.error == InvalidInput
    ensures r.Ok? ==> r.value.data == c.data && r.value.pos == c.pos + delta
  {
    if c.pos + delta < 0 then Err(InvalidInput) else Ok(Cursor(c.data, c.pos + delta))
  }

  /** Two successive relative seeks are one seek by the sum of the offsets,
      provided the first does not go before the start. */
  lemma SeekRelativeCompose(c: Cursor, d1: int, d2: int)
    requires c.pos + d1 >= 0
    ensures SeekRelative(SeekRelative(c, d1).value, d2) == SeekRelative(c, d1 + d2)
  {
  }

  /** A relative seek by `target - pos` reaches the absolute offset `target`,
      whatever the current position, and a read there sees the bytes at `target`. */
  lemma SeekRelativeReachesTarget(c: Cursor, target: nat, n: nat)
    ensures SeekRelative(c, target - c.pos) == Ok(Cursor(c.data, target))
    ensures ReadExact(SeekRelative(c, target - c.pos).value, n).Ok? <==> n == 0 || target + n <= |c.data|
    ensures target + n <= |c.data| ==>
              ReadExact(SeekRelative(c, target - c.pos).value, n).value.value == c.data[target..target + n]
  {
  }

  /** Reading `n` and then `m` bytes is reading `n + m` bytes: either both
      succeed and the blocks concatenate, or the combined read fails. */
  lemma ReadExactSplit(c: Cursor, n: nat, m: nat)
    ensures var whole := ReadExact(c, n + m);
            var first := ReadExact(c, n);
            whole.Ok? ==> first.Ok? && ReadExact(first.value.next, m).Ok?
                          && whole.value.value == first.value.value + ReadExact(first.value.next, m).value.value
                          && whole.value.next == ReadExact(first.value.next, m).value.next
    ensures var first := ReadExact(c, n);
            first.Ok? && ReadExact(first.value.next, m).Ok? ==> ReadExact(c, n + m).Ok?
  {
    var whole := ReadExact(c, n + m);
    if whole.Ok? {
      var first := ReadExact(c, n);
      var second := ReadExact(first.value.next, m);
      assert whole.value.value == first.value.value + second.value.value;
    }
  }

  /** A block placed at the cursor is read back verbatim, and the cursor moves
      past exactly that block. */
  lemma ReadExactRoundTrip(prefix: seq<byte>, block: seq<byte>, suffix: seq<byte>)
    ensures var data := prefix + block + suffix;
            ReadExact(Cursor(data, |prefix|), |block|)
              == Ok(Read(block, Cursor(data, |prefix| + |block|)))
  {
    var data := prefix + block + suffix;
    assert data[|prefix|..|prefix| + |block|] == block;
  }

  /** Writing a byte and reading it back yields the byte. */
  lemma ReadU8RoundTrip(prefix: seq<byte>, x: byte, suffix: seq<byte>)
    ensures var data := prefix + [x] + suffix;
            ReadU8(Cursor(data, |prefix|)) == Ok(Read(x, Cursor(data, |prefix| + 1)))
  {
  }

  /** Writing a `u16` little-endian and reading it back yields the value. */
  lemma ReadU16RoundTrip(prefix: seq<byte>, x: u16, suffix: seq<byte>)
    ensures var data := prefix + U16ToLe(x) + suffix;
            ReadU16(Cursor(data, |prefix|)) == Ok(Read(x, Cursor(data, |prefix| + 2)))
  {
    var data := prefix + U16ToLe(x) + suffix;
    ReadExactRoundTrip(prefix, U16ToLe(x), suffix);
  }

  /** Writing a `u32` little-endian and reading it back yields the value. */
  lemma ReadU32RoundTrip(prefix: seq<byte>, x: u32, suffix: seq<byte>)
    ensures var data := prefix + U32ToLe(x) + suffix;
            ReadU32(Cursor(data, |prefix|)) == Ok(Read(x, Cursor(data, |prefix| + 4)))
  {
    var data := prefix + U32ToLe(x) + suffix;
    ReadExactRoundTrip(prefix, U32ToLe(x), suffix);
  }

  /** Reading a `u16` and writing it back reproduces the two bytes read. */
  lemma ReadU16Reencode(c: Cursor)
    requires c.pos + 2 <= |c.data|
    ensures ReadU16(c).Ok?
    ensures U16ToLe(ReadU16(c).value.value) == c.data[c.pos..c.pos + 2]
  {
    var bs := c.data[c.pos..c.pos + 2];
    ToLeFromLe(bs);
    assert FromLe(bs) == U16FromLe(bs);
  }

  /** Reading a `u32` and writing it back reproduces the four bytes read. */
  lemma ReadU32Reencode(c: Cursor)
    requires c.pos + 4 <= |c.data|
    ensures ReadU32(c).Ok?
    ensures U32ToLe(ReadU32(c).value.value) == c.data[c.pos..c.pos + 4]
  {
    var bs := c.data[c.pos..c.pos + 4];
    ToLeFromLe(bs);
    assert FromLe(bs) == U32FromLe(bs);
  }
}
